=== FILE: README.md ===
# EventContract: a verified model of the single-event ticket sale

`EventContract` sells one event's tickets on a ledger. The deployer becomes the owner and sets
the supply and the price per ticket. Anyone may buy tickets by attaching payment: any
overpayment is refunded, and the holdings are kept per buyer. Only the owner may withdraw the
collected funds. The owner also stops or continues the sale and adds supply. The Solidity source
of the contract is not part of this model. The model agrees with every assertion of the truffle
test suite `eth/test/EventInteractionTests.js`, which is the only source cited below, and makes
the choices listed under "Left out" where the suite is silent.

The model is functional:

- `Wrappers` (`wrappers.dfy`) has the `Option` and `Result` wrappers the transitions return.
- `Words` (`words.dfy`) has the accounting word. `Word` is a `nat` below `MAX = 2^64`, the width
  the suite's overflow test reasons about (line 116). It also has checked addition, and the
  wrapping multiplication that an unchecked contract would do.
- `EventContract` (`event_contract.dfy`) has the identity type `Addr`, the storage record
  `EventSale` and one pure transition per contract call. Each transition returns `Ok` with the
  new storage, plus the amount sent back to the caller where there is one, or `Err` with the
  reason for the revert.
  - The read accessors `available_tickets()`, `ticket_price()` and `sale_active()` are the
    record's fields `availableTickets`, `ticketPrice` and `saleActive`.
  - `get_tickets(addr)` is `GetTickets`. It takes no caller, so any identity may read any
    count, and it cannot change the storage.
- `Ledger` (`ledger.dfy`) applies calls in ledger order with revert semantics: a reverted call
  leaves the storage exactly as it was. It also tallies what a run of calls sold, issued, kept
  and withdrew, and proves the accounting invariants over every run of calls.
- `Holdings` (`holdings.dfy`) sums the buyer→count map.
- `Scenarios` (`scenarios.dfy`) states each behaviour the test suite checks.

A purchase is checked in this order:

1. A closed sale gives `SaleClosed`.
2. A quantity of zero, or more than `available_tickets`, gives `InsufficientSupply`.
3. A payment below the required amount gives `InsufficientPayment`. The required amount is the
   true product `quantity × price`, never reduced modulo the word size.
4. If the buyer's count or the balance would no longer fit a word, the result is `Overflow`.

Checking the product for overflow before the payment would answer the theft attempt at lines
112-124 (2^63 tickets at price 2 for 1 wei) with an overflow error. The test demands "Not enough
ether was sent", so the payment check comes first. The payment is itself a word, so once the
payment check passes the product always fits. The product therefore never overflows on a
committed purchase (`Scenarios.OverflowingPurchaseRejected`).

## Model

| member | source | states |
|---|---|---|
| EventContract.Deploy | eth/test/EventInteractionTests.js:114 | the constructor `(supply, price)` makes the deployer the owner, opens the sale with the given supply and price, holds no funds, and every identity holds 0 tickets |
| EventContract.GetTickets | eth/test/EventInteractionTests.js:26-34 | `get_tickets(addr)` is a read any identity may make (it takes no caller) and changes nothing: it reports the count recorded for `addr`, and 0 for an identity that never bought |
| EventContract.BuyTickets | eth/test/EventInteractionTests.js:21-69 | a purchase commits iff the sale is open, 1 ≤ q ≤ supply, payment ≥ q × price and no counter overflows. A closed sale, missing supply, underpayment and an overflowing count or balance each give their own error. On success supply falls by q, only the caller's count rises by q, the balance rises by q × price, and the refund plus q × price equals the payment |
| EventContract.WithdrawFunds | eth/test/EventInteractionTests.js:71-82 | withdraw succeeds iff the caller is the owner, else `Unauthorized`. On success the whole balance is paid out and nothing else changes |
| EventContract.StopSale | eth/test/EventInteractionTests.js:84-98 | the owner stops the sale (anyone else gets `Unauthorized`, a choice listed under Left out). Afterwards `sale_active` is false and nothing else changes |
| EventContract.ContinueSale | eth/test/EventInteractionTests.js:100-102 | the owner continues the sale (anyone else gets `Unauthorized`, a choice listed under Left out). Afterwards `sale_active` is true and nothing else changes |
| EventContract.AddTickets | eth/test/EventInteractionTests.js:105-110 | the owner adds tickets (anyone else gets `Unauthorized`, a choice listed under Left out). Supply rises by exactly n unless that would overflow the word, and nothing else changes |
| Words.WrappingMul | eth/test/EventInteractionTests.js:116 | the unchecked word product agrees with the true product whenever that product fits a word |
| Ledger.StepAtomic | eth/test/EventInteractionTests.js:41-69 | a reverted call leaves the storage untouched. Owner and price never change. Only purchases and withdrawals send value out |
| Ledger.NonOwnerRejected | eth/test/EventInteractionTests.js:71-82 | every owner-only call from another identity reverts with `Unauthorized` and leaves the storage as it was (tested for withdraw at lines 71-82; for stop, continue and add by the choice listed under Left out) |
| Ledger.BuyCommitsIff | eth/test/EventInteractionTests.js:21-69 | lifts `BuyTickets` onto the ledger's step: a purchase commits iff every guard passes, and the buyer is then charged exactly q × price |
| Ledger.StepTickets | eth/test/EventInteractionTests.js:21-35 | one call moves tickets from supply to buyers or adds owner-issued supply. No ticket is created or lost |
| Ledger.StepBalance | eth/test/EventInteractionTests.js:53-69 | one call changes the balance by what a purchase kept (q × price) less what a withdrawal paid out |
| Ledger.NoOverselling | eth/test/EventInteractionTests.js:21-35 | over any run, supply left plus tickets sold equals starting supply plus tickets added. So sales never exceed the starting supply plus additions |
| Ledger.HoldingsMatchSales | eth/test/EventInteractionTests.js:21-35 | over any run, the tickets held by all buyers grow by exactly the tickets sold |
| Ledger.IdentityFixed | eth/test/EventInteractionTests.js:7-10 | `owner` and `ticket_price` are the same after any run of calls |
| Ledger.BalanceAccounting | eth/test/EventInteractionTests.js:53-69 | over any run, the balance is the starting balance plus what purchases kept minus what withdrawals paid. Refunds never stay in it |
| Ledger.RevenueIsPriceTimesSold | eth/test/EventInteractionTests.js:53-69 | what purchases kept over any run is exactly price × tickets sold |
| Ledger.HoldingIsSumOfPurchases | eth/test/EventInteractionTests.js:26-34 | `get_tickets(buyer)` after any run is the buyer's starting count plus the quantities of the buyer's committed purchases |
| Ledger.HoldingsMonotone | eth/test/EventInteractionTests.js:26-34 | no run of calls ever lowers a buyer's count |
| Ledger.PausedSellsNothing | eth/test/EventInteractionTests.js:84-98 | once the sale is stopped, no run without an owner `continue_sale` sells a ticket or reopens the sale |
| Ledger.OwnerOnlyPowers | eth/test/EventInteractionTests.js:71-82 | in a run without the owner, supply never grows, the sale flag never moves, no funds are withdrawn and no tickets are issued |
| Ledger.TicketsConserved | eth/test/EventInteractionTests.js:105-110 | from deployment on, supply left plus tickets held equals the deployed supply plus every amount the owner added |
| Scenarios.BuyAccumulates | eth/test/EventInteractionTests.js:21-35 | two committed purchases by one buyer add both quantities to that buyer's count and to no one else's (1 then 5 gives 6) |
| Scenarios.UnderpaymentRejected | eth/test/EventInteractionTests.js:37-51 | with the sale open and the tickets available, any payment below q × price reverts with `InsufficientPayment` |
| Scenarios.OverpaymentRefunded | eth/test/EventInteractionTests.js:53-69 | an overpaying buyer is charged exactly q × price. The excess comes back as a positive refund, and the balance grows only by the price |
| Scenarios.OverflowingPurchaseRejected | eth/test/EventInteractionTests.js:112-124 | a purchase whose true price does not fit a word never commits for any payment. With the sale open and the tickets there, it reverts with `InsufficientPayment` |
| Scenarios.OverflowTheftScenario | eth/test/EventInteractionTests.js:112-124 | 2^63 tickets at price 2 for 1 wei: the wrapped product would be 0, but the purchase reverts with `InsufficientPayment` |
| Scenarios.PauseGate | eth/test/EventInteractionTests.js:84-103 | after the owner's `stop_sale`, `sale_active` is false and every purchase, even at the exact price, is `SaleClosed`. After `continue_sale` the sale is open again with nothing else changed |
| Scenarios.OwnerOnly | eth/test/EventInteractionTests.js:71-82 | withdraw from a non-owner gives `Unauthorized` (lines 71-82); stop, continue and add-tickets do the same by the choice listed under Left out |
| Scenarios.SuiteReplay | eth/test/EventInteractionTests.js:12-110 | the suite run in order: counts 1 then 6, the underpayment revert, a refund of exactly 0.01 ether, the unauthorized withdrawal, the stop/continue gate, and +10 supply |

## Left out

- The Solidity contract itself is not part of this model. The model agrees with every assertion
  of the test suite. Where the tests are silent, the model makes these choices:
  - a quantity of 0 is rejected with `InsufficientSupply`;
  - a quantity above `available_tickets` is rejected with `InsufficientSupply`, checked after the
    sale flag and before the payment;
  - a successful withdrawal pays the owner the whole balance and sets it to zero;
  - `add_tickets` refuses, with `Overflow`, a supply that would not fit a word;
  - `stop_sale`, `continue_sale` and `add_tickets` from anyone but the owner revert with
    `Unauthorized` (the suite calls them only from the owner);
  - stop/continue are idempotent;
  - the buyer's count and the balance use checked addition.
- Word width: `MAX` is fixed at 2^64, the width the suite's overflow test reasons about
  (line 116). The deployed contract may use wider words. Every property except the concrete overflow scenario holds the same way
  for any width.
- The suite's deployed instance: its supply comes from a migration script that is not part of
  this model, so `Scenarios.SuiteReplay` takes the supply as a parameter (at least the 7
  tickets the suite buys).
- Ether transfers: how they work, how they fail, gas costs and reentrancy. A refund or payout is
  an output amount produced after the storage update. A transfer that fails and reverts the
  purchase is not modelled.
- Gas accounting and the float conversions of wei and ether in the tests. Money is exact
  integers, and the buyer's net charge is payment minus refund.
- Error message strings: these are the constructors of `Error`.
- A multi-event registry (event identifiers, creation notifications, `DuplicateEvent`,
  `NotFound`). No code shown implements one.
- The web front end (React rendering, tab navigation, web3 bootstrapping, the placeholder
  event-creation form). It has no accounting behaviour.
- Truffle deployment and console logging.

=== FILE: event_contract.dfy ===
/**
 The single-event ticket sale `EventContract`: an owner deploys it with a supply
 and a price, buyers pay for tickets, and the owner withdraws the collected
 funds, pauses and resumes the sale and adds supply.

 Every operation is a pure transition returning either the new state (with the
 amount transferred out to the caller, where there is one) or the error the
 contract reverts with.
 */
module EventContract {
  import opened Wrappers
  import opened Words

  /** A ledger identity (an account address). */
  type Addr = nat

  /** The reasons a call reverts. */
  datatype Error =
    | SaleClosed          // purchase while the owner has stopped the sale
    | InsufficientSupply  // zero tickets, or more than are left
    | InsufficientPayment // attached value below quantity * price
    | Overflow            // a checked addition would not fit a word
    | Unauthorized        // an owner-only call from another identity

  /** The contract's storage. */
  datatype EventSale = EventSale(
    owner: Addr,
    ticketPrice: Word,
    availableTickets: Word,
    saleActive: bool,
    ticketsOwned: map<Addr, Word>,
    balance: Word)

  /** A committed call together with the value sent back to its caller
      (the refund of a purchase, the payout of a withdrawal). */
  datatype Settlement = Settlement(post: EventSale, transfer: Word)

  /** `get_tickets(holder)`: tickets held by `holder`, readable by anyone;
      an identity that never bought holds none. */
  function GetTickets(s: EventSale, holder: Addr): (n: Word)
    ensures holder !in s.ticketsOwned ==> n == 0
    ensures holder in s.ticketsOwned ==> n == s.ticketsOwned[holder]
  {
    if holder in s.ticketsOwned then s.ticketsOwned[holder] else 0
  }

  /** The amount a purchase of `quantity` tickets costs: the true product,
      never reduced modulo the word size. */
  function Required(s: EventSale, quantity: Word): (price: nat)
  {
    quantity * s.ticketPrice
  }

  /** The constructor `(supply, price)`, run by `deployer`. */
  function Deploy(deployer: Addr, supply: Word, price: Word): (s: EventSale)
    ensures s.owner == deployer
    ensures s.ticketPrice == price && s.availableTickets == supply
    ensures s.saleActive && s.balance == 0
    ensures forall a :: GetTickets(s, a) == 0
  {
    EventSale(deployer, price, supply, true, map[], 0)
  }

  /** `buy_tickets(quantity)` sent by `caller` with `payment` attached. */
  function BuyTickets(s: EventSale, quantity: Word, caller: Addr, payment: Word): (r: Result<Settlement, Error>)
    ensures r.Ok? <==>
      && s.saleActive
      && 1 <= quantity <= s.availableTickets
      && Required(s, quantity) <= payment
      && GetTickets(s, caller) + quantity < MAX
      && s.balance + Required(s, quantity) < MAX
    ensures !s.saleActive ==> r == Err(SaleClosed)
    ensures s.saleActive && (quantity == 0 || quantity > s.availableTickets) ==> r == Err(InsufficientSupply)
    ensures s.saleActive && 1 <= quantity <= s.availableTickets && payment < Required(s, quantity) ==>
      r == Err(InsufficientPayment)
    ensures (s.saleActive && 1 <= quantity <= s.availableTickets && Required(s, quantity) <= payment && r.Err?) ==>
      r == Err(Overflow)
    ensures r.Ok? ==>
      var t := r.value.post;
      && t.availableTickets + quantity == s.availableTickets
      && GetTickets(t, caller) == GetTickets(s, caller) + quantity
      && (forall a :: a != caller ==> GetTickets(t, a) == GetTickets(s, a))
      && t.balance == s.balance + Required(s, quantity)
      && r.value.transfer + Required(s, quantity) == payment
      && t.owner == s.owner && t.ticketPrice == s.ticketPrice && t.saleActive
  {
    if !s.saleActive then Err(SaleClosed)
    else if quantity == 0 || quantity > s.availableTickets then Err(InsufficientSupply)
    else if payment < Required(s, quantity) then Err(InsufficientPayment)
    else
      // payment is a word and covers the price, so the price fits a word too
      var price: Word := Required(s, quantity);
      match (CheckedAdd(GetTickets(s, caller), quantity), CheckedAdd(s.balance, price))
      case (Some(held), Some(collected)) =>
        var t := s.(availableTickets := s.availableTickets - quantity,
                    ticketsOwned := s.ticketsOwned[caller := held],
                    balance := collected);
        Ok(Settlement(t, payment - price))
      case _ => Err(Overflow)
  }

  /** `withdraw_funds()` sent by `caller`: the whole balance goes to the owner. */
  function WithdrawFunds(s: EventSale, caller: Addr): (r: Result<Settlement, Error>)
    ensures r.Ok? <==> caller == s.owner
    ensures r.Err? ==> r.error == Unauthorized
    ensures r.Ok? ==> r.value.transfer == s.balance && r.value.post.balance == 0
    ensures r.Ok? ==> r.value.post == s.(balance := 0)
  {
    if caller != s.owner then Err(Unauthorized)
    else Ok(Settlement(s.(balance := 0), s.balance))
  }

  /** `stop_sale()` sent by `caller`. */
  function StopSale(s: EventSale, caller: Addr): (r: Result<EventSale, Error>)
    ensures caller != s.owner ==> r == Err(Unauthorized)
    ensures caller == s.owner ==> r.Ok? && !r.value.saleActive
    ensures r.Ok? ==> r.value.(saleActive := s.saleActive) == s
  {
    if caller != s.owner then Err(Unauthorized)
    else Ok(s.(saleActive := false))
  }

  /** `continue_sale()` sent by `caller`. */
  function ContinueSale(s: EventSale, caller: Addr): (r: Result<EventSale, Error>)
    ensures caller != s.owner ==> r == Err(Unauthorized)
    ensures caller == s.owner ==> r.Ok? && r.value.saleActive
    ensures r.Ok? ==> r.value.(saleActive := s.saleActive) == s
  {
    if caller != s.owner then Err(Unauthorized)
    else Ok(s.(saleActive := true))
  }

  /** `add_tickets(amount)` sent by `caller`. */
  function AddTickets(s: EventSale, amount: Word, caller: Addr): (r: Result<EventSale, Error>)
    ensures caller != s.owner ==> r == Err(Unauthorized)
    ensures caller == s.owner && s.availableTickets + amount >= MAX ==> r == Err(Overflow)
    ensures r.Ok? <==> caller == s.owner && s.availableTickets + amount < MAX
    ensures r.Ok? ==>
      && r.value.availableTickets == s.availableTickets + amount
      && r.value.(availableTickets := s.availableTickets) == s
  {
    if caller != s.owner then Err(Unauthorized)
    else match CheckedAdd(s.availableTickets, amount)
      case Some(n) => Ok(s.(availableTickets := n))
      case None => Err(Overflow)
  }
}

=== FILE: holdings.dfy ===
/**
 The total number of tickets held across all buyers, used to state that tickets
 are neither created nor destroyed by a purchase.
 */
module Holdings {
  import opened Words
  import opened EventContract

  /** Sum of the counts of a buyer -> count map. */
  ghost function Total(m: map<Addr, Word>): (n: nat)
    decreases |m|
  {
    if m == map[] then 0
    else
      var k :| k in m;
      m[k] + Total(m - {k})
  }

  /** Any key may be split off the sum, not only the one `Total` picks. */
  lemma {:induction false} TotalSplit(m: map<Addr, Word>, k: Addr)
    requires k in m
    ensures Total(m) == m[k] + Total(m - {k})
    decreases |m|
  {
    var j :| j in m && Total(m) == m[j] + Total(m - {j});
    if j != k {
      var rest := m - {j} - {k};
      assert m - {k} - {j} == rest;
      assert |m - {j}| < |m|;
      assert |m - {k}| < |m|;
      TotalSplit(m - {j}, k);
      TotalSplit(m - {k}, j);
    }
  }

  /** Overwriting one buyer's count changes the total by exactly the difference. */
  lemma TotalUpdate(m: map<Addr, Word>, k: Addr, v: Word)
    ensures k in m ==> Total(m[k := v]) + m[k] == Total(m) + v
    ensures k !in m ==> Total(m[k := v]) == Total(m) + v
  {
    var m' := m[k := v];
    TotalSplit(m', k);
    if k in m {
      assert m' - {k} == m - {k};
      TotalSplit(m, k);
    } else {
      assert m' - {k} == m;
    }
  }
}

=== FILE: ledger.dfy ===
/**
 The ledger that runs the contract: calls are applied one at a time, a call
 that reverts leaves the storage exactly as it was, and the effects of a run of
 calls are tallied to state the contract's accounting invariants.
 */
module Ledger {
  import opened Wrappers
  import opened Words
  import opened Holdings
  import opened EventContract

  /** A mutating transaction sent to the contract. */
  datatype Call =
    | Buy(caller: Addr, quantity: Word, payment: Word)
    | Withdraw(caller: Addr)
    | Stop(caller: Addr)
    | Continue(caller: Addr)
    | Add(caller: Addr, amount: Word)

  /** One call as the ledger records it: committed with the new storage and
      the value sent back to the caller, or reverted with its error. */
  function Step(s: EventSale, c: Call): (r: Result<Settlement, Error>)
  {
    match c
    case Buy(a, q, p) => BuyTickets(s, q, a, p)
    case Withdraw(a) => WithdrawFunds(s, a)
    case Stop(a) => Committing(StopSale(s, a))
    case Continue(a) => Committing(ContinueSale(s, a))
    case Add(a, n) => Committing(AddTickets(s, n, a))
  }

  /** A call that sends no value back, as a settlement of zero. */
  function Committing(r: Result<EventSale, Error>): (q: Result<Settlement, Error>)
    ensures q.Ok? <==> r.Ok?
    ensures r.Ok? ==> q.value == Settlement(r.value, 0)
    ensures r.Err? ==> q.error == r.error
  {
    match r
    case Ok(t) => Ok(Settlement(t, 0))
    case Err(e) => Err(e)
  }

  /** The storage after a call: a reverted call changes nothing. */
  function Apply(s: EventSale, c: Call): (t: EventSale)
  {
    match Step(s, c)
    case Ok(st) => st.post
    case Err(_) => s
  }

  /** The storage after a run of calls, in ledger order. */
  function Run(s: EventSale, calls: seq<Call>): (t: EventSale)
    decreases |calls|
  {
    if calls == [] then s else Run(Apply(s, calls[0]), calls[1..])
  }

  /** Tickets a call sold. */
  function Sold(s: EventSale, c: Call): (n: nat)
  {
    if c.Buy? && Step(s, c).Ok? then c.quantity else 0
  }

  /** Tickets a call added to the supply. */
  function Issued(s: EventSale, c: Call): (n: nat)
  {
    if c.Add? && Step(s, c).Ok? then c.amount else 0
  }

  /** Currency a call kept in the contract. */
  function Revenue(s: EventSale, c: Call): (amount: nat)
  {
    if c.Buy? && Step(s, c).Ok? then Required(s, c.quantity) else 0
  }

  /** Currency a call paid out of the contract's balance. */
  function Withdrawn(s: EventSale, c: Call): (amount: nat)
  {
    if c.Withdraw? && Step(s, c).Ok? then Step(s, c).value.transfer else 0
  }

  /** The sum of `measure` over a run of calls. */
  function Tally(s: EventSale, calls: seq<Call>, measure: (EventSale, Call) -> nat): (total: nat)
    decreases |calls|
  {
    if calls == [] then 0
    else measure(s, calls[0]) + Tally(Apply(s, calls[0]), calls[1..], measure)
  }

  /** No call changes the owner or the price. The other two clauses only lift
      the definitions of `Apply` and `Step` into a form the trace lemmas use:
      a reverted call leaves the storage as it was, and only purchases and
      withdrawals send value out. */
  lemma StepAtomic(s: EventSale, c: Call)
    ensures Step(s, c).Err? ==> Apply(s, c) == s
    ensures Apply(s, c).owner == s.owner && Apply(s, c).ticketPrice == s.ticketPrice
    ensures Step(s, c).Ok? && !c.Buy? && !c.Withdraw? ==> Step(s, c).value.transfer == 0
  {
  }

  /** Owner-only calls from anyone else revert with `Unauthorized`. */
  lemma NonOwnerRejected(s: EventSale, c: Call)
    requires !c.Buy? && c.caller != s.owner
    ensures Step(s, c) == Err(Unauthorized)
    ensures Apply(s, c) == s
  {
  }

  /** `BuyTickets`'s commit condition and exact charge, lifted onto the
      ledger's step: a purchase commits exactly when the sale is open, the quantity
      is available, the payment covers the true price and no counter
      overflows, and the buyer is then charged exactly that price. */
  lemma BuyCommitsIff(s: EventSale, a: Addr, q: Word, p: Word)
    ensures Step(s, Buy(a, q, p)).Ok? <==>
      s.saleActive && 1 <= q <= s.availableTickets && Required(s, q) <= p
      && GetTickets(s, a) + q < MAX && s.balance + Required(s, q) < MAX
    ensures Step(s, Buy(a, q, p)).Ok? ==>
      p - Step(s, Buy(a, q, p)).value.transfer == q * s.ticketPrice
  {
  }

  /** One call moves tickets between the supply and the buyers and adds
      owner-issued tickets, and nothing else. */
  lemma StepTickets(s: EventSale, c: Call)
    ensures Apply(s, c).availableTickets + Sold(s, c) == s.availableTickets + Issued(s, c)
    ensures Total(Apply(s, c).ticketsOwned) == Total(s.ticketsOwned) + Sold(s, c)
  {
    var r := Step(s, c);
    if c.Buy? && r.Ok? {
      var held := GetTickets(s, c.caller) + c.quantity;
      assert Apply(s, c).ticketsOwned == s.ticketsOwned[c.caller := held];
      TotalUpdate(s.ticketsOwned, c.caller, held);
    } else {
      assert Apply(s, c).ticketsOwned == s.ticketsOwned;
    }
  }

  /** One call's effect on the collected balance. */
  lemma StepBalance(s: EventSale, c: Call)
    ensures Apply(s, c).balance + Withdrawn(s, c) == s.balance + Revenue(s, c)
    ensures Revenue(s, c) == Sold(s, c) * s.ticketPrice
  {
  }

  /** Supply conservation: what is left plus what was sold is the starting
      supply plus what the owner added; so sales never exceed that bound. */
  lemma {:induction false} NoOverselling(s: EventSale, calls: seq<Call>)
    ensures Run(s, calls).availableTickets + Tally(s, calls, Sold) == s.availableTickets + Tally(s, calls, Issued)
    ensures Tally(s, calls, Sold) <= s.availableTickets + Tally(s, calls, Issued)
    decreases |calls|
  {
    if calls != [] {
      StepTickets(s, calls[0]);
      NoOverselling(Apply(s, calls[0]), calls[1..]);
    }
  }

  /** Every ticket the buyers hold beyond the start was sold by a committed purchase. */
  lemma {:induction false} HoldingsMatchSales(s: EventSale, calls: seq<Call>)
    ensures Total(Run(s, calls).ticketsOwned) == Total(s.ticketsOwned) + Tally(s, calls, Sold)
    decreases |calls|
  {
    if calls != [] {
      StepTickets(s, calls[0]);
      HoldingsMatchSales(Apply(s, calls[0]), calls[1..]);
    }
  }

  /** Owner and price are fixed for the life of the contract. */
  lemma {:induction false} IdentityFixed(s: EventSale, calls: seq<Call>)
    ensures Run(s, calls).owner == s.owner
    ensures Run(s, calls).ticketPrice == s.ticketPrice
    decreases |calls|
  {
    if calls != [] {
      StepAtomic(s, calls[0]);
      IdentityFixed(Apply(s, calls[0]), calls[1..]);
    }
  }

  /** The balance is what purchases kept less what was withdrawn;
      refunded overpayment never stays in it. */
  lemma {:induction false} BalanceAccounting(s: EventSale, calls: seq<Call>)
    ensures Run(s, calls).balance + Tally(s, calls, Withdrawn) == s.balance + Tally(s, calls, Revenue)
    decreases |calls|
  {
    if calls != [] {
      StepBalance(s, calls[0]);
      BalanceAccounting(Apply(s, calls[0]), calls[1..]);
    }
  }

  /** What purchases kept is the fixed price times the tickets sold. */
  lemma {:induction false} RevenueIsPriceTimesSold(s: EventSale, calls: seq<Call>)
    ensures Tally(s, calls, Revenue) == s.ticketPrice * Tally(s, calls, Sold)
    decreases |calls|
  {
    if calls != [] {
      var s' := Apply(s, calls[0]);
      var here := Sold(s, calls[0]);
      var rest := Tally(s', calls[1..], Sold);
      StepBalance(s, calls[0]);
      StepAtomic(s, calls[0]);
      RevenueIsPriceTimesSold(s', calls[1..]);
      assert Tally(s, calls, Sold) == here + rest;
      assert Tally(s, calls, Revenue) == here * s.ticketPrice + s'.ticketPrice * rest;
      MulDistributes(s.ticketPrice, here, rest);
    }
  }

  lemma MulDistributes(a: nat, b: nat, c: nat)
    ensures b * a + a * c == a * (b + c)
  {
  }

  /** Tickets a call sold to `buyer`. */
  function BoughtBy(buyer: Addr): (measure: (EventSale, Call) -> nat)
  {
    (s: EventSale, c: Call) => if c.Buy? && c.caller == buyer && Step(s, c).Ok? then c.quantity else 0
  }

  /** `get_tickets(buyer)` reports what the buyer held at the start plus the
      quantity of every purchase of theirs that committed: counts accumulate. */
  lemma {:induction false} HoldingIsSumOfPurchases(s: EventSale, calls: seq<Call>, buyer: Addr)
    ensures GetTickets(Run(s, calls), buyer) == GetTickets(s, buyer) + Tally(s, calls, BoughtBy(buyer))
    decreases |calls|
  {
    if calls != [] {
      assert GetTickets(Apply(s, calls[0]), buyer) == GetTickets(s, buyer) + BoughtBy(buyer)(s, calls[0]);
      HoldingIsSumOfPurchases(Apply(s, calls[0]), calls[1..], buyer);
    }
  }

  /** Ticket counts never go down: there is no way to give tickets back. */
  lemma {:induction false} HoldingsMonotone(s: EventSale, calls: seq<Call>, a: Addr)
    ensures GetTickets(Run(s, calls), a) >= GetTickets(s, a)
    decreases |calls|
  {
    if calls != [] {
      assert GetTickets(Apply(s, calls[0]), a) >= GetTickets(s, a);
      HoldingsMonotone(Apply(s, calls[0]), calls[1..], a);
    }
  }

  /** No call in `calls` is the owner resuming the sale. */
  ghost predicate NoOwnerResume(owner: Addr, calls: seq<Call>)
  {
    forall i :: 0 <= i < |calls| ==> !(calls[i].Continue? && calls[i].caller == owner)
  }

  /** Pause gate: once the sale is stopped, nothing is sold and it stays
      stopped until the owner calls `continue_sale`. */
  lemma {:induction false} PausedSellsNothing(s: EventSale, calls: seq<Call>)
    requires !s.saleActive && NoOwnerResume(s.owner, calls)
    ensures Tally(s, calls, Sold) == 0
    ensures !Run(s, calls).saleActive
    ensures Run(s, calls).availableTickets >= s.availableTickets
    decreases |calls|
  {
    if calls != [] {
      var s' := Apply(s, calls[0]);
      assert !calls[0].Continue? || calls[0].caller != s.owner by {
        assert !(calls[0].Continue? && calls[0].caller == s.owner);
      }
      assert !s'.saleActive && s'.owner == s.owner;
      assert Sold(s, calls[0]) == 0;
      assert s'.availableTickets >= s.availableTickets;
      assert NoOwnerResume(s'.owner, calls[1..]) by {
        forall i | 0 <= i < |calls[1..]|
          ensures !(calls[1..][i].Continue? && calls[1..][i].caller == s.owner)
        {
          assert calls[1..][i] == calls[i + 1];
        }
      }
      PausedSellsNothing(s', calls[1..]);
    }
  }

  /** No call in `calls` comes from the owner. */
  ghost predicate OwnerAbsent(owner: Addr, calls: seq<Call>)
  {
    forall i :: 0 <= i < |calls| ==> calls[i].caller != owner
  }

  /** Access control over a whole run: without the owner the supply can only
      shrink, the sale flag never moves and no funds leave the contract. */
  lemma {:induction false} OwnerOnlyPowers(s: EventSale, calls: seq<Call>)
    requires OwnerAbsent(s.owner, calls)
    ensures Run(s, calls).availableTickets <= s.availableTickets
    ensures Run(s, calls).saleActive == s.saleActive
    ensures Run(s, calls).balance >= s.balance
    ensures Tally(s, calls, Withdrawn) == 0 && Tally(s, calls, Issued) == 0
    decreases |calls|
  {
    if calls != [] {
      var s' := Apply(s, calls[0]);
      assert calls[0].caller != s.owner;
      assert s'.owner == s.owner;
      assert OwnerAbsent(s'.owner, calls[1..]) by {
        forall i | 0 <= i < |calls[1..]|
          ensures calls[1..][i].caller != s.owner
        {
          assert calls[1..][i] == calls[i + 1];
        }
      }
      OwnerOnlyPowers(s', calls[1..]);
    }
  }

  /** From deployment on, supply left plus tickets held is exactly the
      deployed supply plus every amount the owner added. */
  lemma TicketsConserved(owner: Addr, supply: Word, price: Word, calls: seq<Call>)
    ensures var s := Run(Deploy(owner, supply, price), calls);
      s.availableTickets + Total(s.ticketsOwned) == supply + Tally(Deploy(owner, supply, price), calls, Issued)
  {
    var s0 := Deploy(owner, supply, price);
    NoOverselling(s0, calls);
    HoldingsMatchSales(s0, calls);
    assert Total(s0.ticketsOwned) == 0;
  }
}

=== FILE: scenarios.dfy ===
/**
 The behaviours the contract's test suite exercises, stated over the model:
 accumulating purchases, the payment floor, the refund of overpayment, access
 control, the pause gate, adding supply, and the integer-overflow theft attempt.
 */
module Scenarios {
  import opened Wrappers
  import opened Words
  import opened EventContract

  /** 0.01 ether in wei, the price the suite's deployment uses. */
  const Price: Word := 10_000_000_000_000_000

  /** 2^63, the supply and quantity of the overflow attempt. */
  const Half: Word := 0x8000_0000_0000_0000

  /** Two committed purchases by the same buyer add up in `get_tickets`,
      and nobody else's count moves. */
  lemma BuyAccumulates(s: EventSale, buyer: Addr, q1: Word, p1: Word, q2: Word, p2: Word, other: Addr)
    requires BuyTickets(s, q1, buyer, p1).Ok?
    requires BuyTickets(BuyTickets(s, q1, buyer, p1).value.post, q2, buyer, p2).Ok?
    requires other != buyer
    ensures var s2 := BuyTickets(BuyTickets(s, q1, buyer, p1).value.post, q2, buyer, p2).value.post;
      && GetTickets(s2, buyer) == GetTickets(s, buyer) + q1 + q2
      && GetTickets(s2, other) == GetTickets(s, other)
      && s2.availableTickets + q1 + q2 == s.availableTickets
  {
  }

  /** Paying less than the true price reverts with `InsufficientPayment`
      whenever the sale is open and the tickets are there. */
  lemma UnderpaymentRejected(s: EventSale, buyer: Addr, q: Word, payment: Word)
    requires s.saleActive && 1 <= q <= s.availableTickets
    requires payment < q * s.ticketPrice
    ensures BuyTickets(s, q, buyer, payment) == Err(InsufficientPayment)
  {
  }

  /** A buyer who sends more than the price is charged exactly the price:
      the contract keeps `quantity * price` and sends the rest back. */
  lemma OverpaymentRefunded(s: EventSale, buyer: Addr, q: Word, payment: Word)
    requires BuyTickets(s, q, buyer, payment).Ok?
    ensures var st := BuyTickets(s, q, buyer, payment).value;
      && payment - st.transfer == q * s.ticketPrice
      && st.post.balance - s.balance == q * s.ticketPrice
      && (payment > q * s.ticketPrice ==> st.transfer > 0)
  {
  }

  /** A purchase whose true price does not fit a word never commits, whatever
      is paid: the payment is itself a word, so it always falls short. */
  lemma OverflowingPurchaseRejected(s: EventSale, buyer: Addr, q: Word, payment: Word)
    requires q * s.ticketPrice >= MAX
    ensures BuyTickets(s, q, buyer, payment).Err?
    ensures s.saleActive && 1 <= q <= s.availableTickets ==>
      BuyTickets(s, q, buyer, payment) == Err(InsufficientPayment)
  {
  }

  /** The suite's theft attempt: 2^63 tickets at price 2 for 1 wei. A wrapping
      multiplication would ask for 0 wei and let it through; the model's true
      product asks for 2^64 and the purchase reverts. */
  lemma OverflowTheftScenario(deployer: Addr, thief: Addr)
    ensures WrappingMul(Half, 2) == 0
    ensures BuyTickets(Deploy(deployer, Half, 2), Half, thief, 1) == Err(InsufficientPayment)
  {
    OverflowingPurchaseRejected(Deploy(deployer, Half, 2), thief, Half, 1);
  }

  /** Stopping the sale closes it to every purchase, even at the exact price;
      continuing it reopens it. */
  lemma PauseGate(s: EventSale, buyer: Addr, q: Word, payment: Word)
    ensures var stopped := StopSale(s, s.owner).value;
      && !stopped.saleActive
      && BuyTickets(stopped, q, buyer, payment) == Err(SaleClosed)
      && ContinueSale(stopped, s.owner).value.saleActive
      && ContinueSale(stopped, s.owner).value == s.(saleActive := true)
  {
  }

  /** Only the owner withdraws, stops, continues or adds supply. */
  lemma OwnerOnly(s: EventSale, caller: Addr, n: Word)
    requires caller != s.owner
    ensures WithdrawFunds(s, caller) == Err(Unauthorized)
    ensures StopSale(s, caller) == Err(Unauthorized)
    ensures ContinueSale(s, caller) == Err(Unauthorized)
    ensures AddTickets(s, n, caller) == Err(Unauthorized)
  {
  }

  /** The suite run end to end with owner 0 and buyers 1, 2 and 3 against a
      deployment of `supply` tickets at 0.01 ether. */
  lemma SuiteReplay(supply: Word)
    requires 7 <= supply < MAX - 3
    ensures
      var s0 := Deploy(0, supply, Price);
      var s1 := BuyTickets(s0, 1, 1, Price).value.post;
      var s2 := BuyTickets(s1, 5, 1, 5 * Price).value.post;
      var r3 := BuyTickets(s2, 1, 3, 2 * Price).value;
      var s4 := StopSale(r3.post, 0).value;
      var s5 := ContinueSale(s4, 0).value;
      && GetTickets(s1, 1) == 1
      && GetTickets(s2, 1) == 6
      && BuyTickets(s2, 1, 2, 5_000_000_000_000_000) == Err(InsufficientPayment)
      && r3.transfer == Price
      && WithdrawFunds(r3.post, 3) == Err(Unauthorized)
      && !s4.saleActive
      && BuyTickets(s4, 1, 3, Price) == Err(SaleClosed)
      && s5.saleActive
      && AddTickets(s5, 10, 0).value.availableTickets == s5.availableTickets + 10
  {
    var s0 := Deploy(0, supply, Price);
    assert BuyTickets(s0, 1, 1, Price).Ok?;
    var s1 := BuyTickets(s0, 1, 1, Price).value.post;
    assert BuyTickets(s1, 5, 1, 5 * Price).Ok?;
    var s2 := BuyTickets(s1, 5, 1, 5 * Price).value.post;
    assert GetTickets(s2, 3) == 0;
    assert BuyTickets(s2, 1, 3, 2 * Price).Ok?;
  }
}

=== FILE: words.dfy ===
/**
 The fixed-width unsigned integers the ticket contract keeps its accounting in,
 and the checked addition that refuses to wrap.
 */
module Words {
  import opened Wrappers

  /** Width of an accounting word: 2^64, the width the overflow scenario of the
      test suite reasons about. */
  const MAX: nat := 0x1_0000_0000_0000_0000

  /** An unsigned machine word: every counter and amount the contract stores. */
  type Word = n: nat | n < MAX

  /** Addition that detects, instead of wrapping, a sum that does not fit a word. */
  function CheckedAdd(a: Word, b: Word): (r: Option<Word>)
    ensures r.Some? <==> a + b < MAX
    ensures r.Some? ==> r.value == a + b && a <= r.value && b <= r.value
  {
    if a + b < MAX then Some(a + b) else None
  }

  /** The result a wrapping (unchecked) word multiplication would give. */
  function WrappingMul(a: Word, b: Word): (r: Word)
    ensures a * b < MAX ==> r == a * b
  {
    (a * b) % MAX
  }
}

=== FILE: wrappers.dfy ===
/**
 The failure-compatible wrappers the model returns: an optional value, and a
 result that is either a value or the error a call reverts with.
 */
module Wrappers {

  datatype Option<+T> = None | Some(value: T)

  datatype Result<+T, +E> = Ok(value: T) | Err(error: E)
}
